=== FILE: README.md ===
# Asset-request service — a Dafny model

The service keeps one table, `asset_requests`, of employee requests for
equipment. Employees submit requests (`POST /api/requests`). HR lists and
filters them (`GET /api/requests`), approves or rejects one
(`PUT /api/requests/:id`), deletes a selection (`DELETE /api/requests`) or
clears the table (`DELETE /api/requests/clear`).

This project models two parts of `Backend/server.js`:

- **The submission validator** (`validation.dfy`, with the JavaScript string
  operations it needs in `jstext.dfy`). It is the ordered chain of field
  checks in the submit handler, plus `validateDate`, written as pure
  predicates. `Validation.Validate` returns `None` when every check passes.
  Otherwise it returns the first failing check, in the handler's order: name,
  employee ID, asset type, other-asset name, reason, date.
- **The table operations** (`requests.dfy`, `store.dfy`).
  - `requests.dfy` describes each handler's SQL as a function from the table
    before to the table after and the handler's outcome. Lemmas there prove
    what each handler promises, and that the invariant `Requests.Inv` is kept.
    The invariant says ids are well formed, every stored row meets the
    submit-time constraints, and no two rows share
    (employee ID, asset type, other-asset name).
  - `store.dfy` is the imperative side. `Store.RequestStore` holds the rows
    (a map keyed by id) and the id sequence as fields. Its methods update them
    in place, step by step as the handlers do. Each method is proved to
    produce exactly the table and outcome of the matching function.

`scenarios.dfy` proves a walkthrough: submit a request, approve it, list it.
It also holds the counterexample for the finding below.

Outcomes are datatypes, not HTTP responses:

- `Created` / `Invalid(check)` / `Duplicate(name)` for submit;
- `Updated` / `InvalidStatus` / `NotFound` for update;
- `NoIds` / `Deleted(count)` for delete.

A body field that is missing is `None`. Dates are day numbers. "Today" and
"two calendar months from today" are passed in as parameters.

Points worth knowing about the code:

- The asset type may be any non-empty string; no catalogue is checked
  (server.js:45).
- The table schema is not part of the source. The model assumes:
  - the id column is a PostgreSQL `SERIAL`, which deleting or clearing rows
    does not reset, so `nextId` never decreases;
  - `status` is a text column. Then the status filter of the list handler
    (server.js:93) compares the text exactly, so `pending` matches nothing.
    Were it an enum column, an unknown status text would make the query
    fail with a 500 response instead;
  - no unique constraint covers (`employee_id`, `asset_type`,
    `other_asset_name`). Only under that assumption do both inserts of the
    Findings row succeed; with such a constraint the second insert would
    fail with a 500 response.
- The handler as written does not keep `Requests.NoDuplicates` (see
  Findings); the corrected handler `Requests.Submit` does.

## Model

| member | source | states |
|---|---|---|
| `JsText.TrimStart` | Backend/server.js:37 | result is the suffix of the input left after its leading ECMAScript white space; it does not start with white space |
| `JsText.TrimEnd` | Backend/server.js:37 | result is the prefix left before the trailing white space; it does not end with white space |
| `JsText.Trim` | Backend/server.js:37 | `trim()`: result has no white space at either end and is no longer than the input; `TrimOfPadded` characterises it exactly |
| `JsText.TrimOfPadded` | Backend/server.js:37 | white space padding on both sides of an already-trimmed text is exactly what `trim()` removes |
| `JsText.TrimOfTrimmed` | Backend/server.js:37 | text with no white space at either end is its own trim |
| `JsText.TrimIdempotent` | Backend/server.js:75 | trimming twice equals trimming once, so stored trimmed fields are stable |
| `JsText.Utf16Length` | Backend/server.js:37 | JavaScript `length` counts UTF-16 units: between the number of characters and twice that |
| `JsText.BmpTextLength` | Backend/server.js:37 | for text without characters beyond U+FFFF, the `length` is the number of characters |
| `JsText.Utf16LengthOfChar` | Backend/server.js:37 | one character has `length` 1, or 2 when it lies beyond U+FFFF (a surrogate pair) |
| `JsText.Utf16LengthOfConcat` | Backend/server.js:37 | the `length` of joined text is the sum of the parts' lengths, so with the previous row it fixes the value on every text |
| `JsText.LowerChar` | Backend/server.js:99 | ASCII case folding maps each capital to the lower-case letter at the same place in the alphabet, and leaves every other character alone |
| `JsText.Lower` | Backend/server.js:99 | folding a text folds each character and keeps the length |
| `JsText.ContainsIgnoresNeedleCase` | Backend/server.js:99-100 | the `ILIKE` match gives the same answer whatever the case of the search text |
| `Validation.Validate` | Backend/server.js:36-59 | `None` iff every check passes; otherwise the reported check fails and every earlier check passes |
| `Validation.FirstFailureIsUnique` | Backend/server.js:36-59 | a check that fails while all earlier checks pass is the one the chain reports |
| `Validation.ValidatedFields` | Backend/server.js:36-59 | an accepted submission passes each field check |
| `Validation.FieldsValidated` | Backend/server.js:36-59 | a submission passing each field check is accepted |
| `Validation.TrimmedLettersAndSpaces` | Backend/server.js:49 | trimming a name of letters and white space leaves only letters and white space |
| `Validation.AcceptedIdIsNumbered` | Backend/server.js:41 | every accepted employee ID is `ATS0` followed by the three-digit numeral of a number from 1 to 999 |
| `Validation.NumberedIdIsAccepted` | Backend/server.js:41 | `ATS0001` through `ATS0999` are all accepted |
| `Validation.EmployeeIdAcceptedIff` | Backend/server.js:41 | the ID check accepts exactly `ATS0` + three digits not ending in `000` |
| `Validation.OtherNameWithDigitRejected` | Backend/server.js:49-51 | for type `Other`, a digit in the other-asset name fails validation; if name and ID pass, that check is the one reported |
| `Validation.DateOk` | Backend/server.js:22-28 | `validateDate`: an accepted date is present and the window from today to the two-month bound is not empty |
| `Validation.DateAcceptedIff` | Backend/server.js:28 | once the earlier checks pass, a submission is accepted iff its date is present and lies from today to the two-month bound, both included |
| `Validation.DateBoundsInclusive` | Backend/server.js:28 | today and the two-month bound are both accepted dates (`>=` and `<=`) |
| `Validation.DateOutsideWindowRejected` | Backend/server.js:22-28 | a date before today or after the two-month bound fails validation |
| `Requests.ParseNewStatus` | Backend/server.js:117-119 | accepts exactly `Approved` and `Rejected`, never `Pending`, and returns the status with that text |
| `Requests.NewRecord` | Backend/server.js:73-76 | the inserted row carries the given id and the status `Pending` |
| `Requests.NewRecordIsStorable` | Backend/server.js:36-76 | the row inserted for a submission that passed the chain meets the stored-row constraints: trimmed, within the checked bounds, other-asset name of letters and white space present iff the type is `Other` |
| `Requests.QueryMatchesKey` | Backend/server.js:63-66 | with the trimmed other-asset name, one row matches the duplicate query iff it has the key (employee ID, type, other-asset name for `Other`) of the row the insert would write |
| `Requests.DuplicateQueryFindsKey` | Backend/server.js:63-70 | with the trimmed other-asset name, the duplicate query finds a row iff some row has the key of the row the insert would write |
| `Requests.SubmitOutcomes` | Backend/server.js:36-76 | validation failure is reported with its check; rejection leaves the table unchanged; duplicate iff an existing row has the new row's key, naming the raw other-asset name for `Other` and the type otherwise; otherwise the row `NewRecord` builds is added under a fresh id: trimmed name and reason, the submitted ID, type and date, the trimmed other-asset name for `Other` and none otherwise, status `Pending` |
| `Requests.InsertKeepsInv` | Backend/server.js:72-76 | inserting a valid row under the next id, with a key no row has, keeps the table invariant |
| `Requests.SubmitAsWritten` | Backend/server.js:33-76 | the handler as written: a failing chain gives its check and changes nothing; after a passing chain it reports a duplicate iff some row has the submitted employee ID and type and, for `Other`, the other-asset name exactly as submitted (untrimmed); a duplicate names the raw other-asset name for `Other` and the type otherwise, and changes nothing; otherwise the row `NewRecord` builds (trimmed fields, status `Pending`) is inserted under the next id |
| `Requests.RawQueryFindsKey` | Backend/server.js:63-66 | the duplicate query as written finds a row iff some row has the submitted employee ID, type and, for `Other`, the raw other-asset name |
| `Requests.PaddedNameNeverDuplicate` | Backend/server.js:63-76 | as written, on any table whose rows are all stored rows (even one already holding duplicates), a valid `Other` request whose name has white space at an end is never reported as a duplicate: it is always inserted |
| `Requests.Submit` | Backend/server.js:33-76 | the handler with the trimmed name in the duplicate query: a failing chain is reported and changes nothing, a duplicate changes nothing, otherwise one `Pending` row is inserted under the next id |
| `Requests.RawProbeOfTrimmedName` | Backend/server.js:63-66 | for an other-asset name with no white space at either end, the raw and the trimmed name give the same duplicate query |
| `Requests.AsWrittenAgreesUnlessPadded` | Backend/server.js:63-76 | the handler as written and the corrected one give the same table and outcome on every request except an `Other` one whose name has white space at an end |
| `Requests.SubmitKeepsInv` | Backend/server.js:61-76 | submit keeps the table invariant, including that no two rows have the same key |
| `Requests.ResubmitIsDuplicate` | Backend/server.js:63-70 | submitting an accepted request again is reported as a duplicate and changes nothing |
| `Requests.SetStatusKeepsInv` | Backend/server.js:122-125 | changing one row's status keeps the table invariant |
| `Requests.UpdateStatus` | Backend/server.js:117-131 | the row is updated iff the status is `Approved` or `Rejected` and the id exists; ids and the sequence never change |
| `Requests.UpdateStatusOutcomes` | Backend/server.js:117-131 | on any table: invalid status iff not `Approved`/`Rejected`; not found iff the id is absent; both leave the table unchanged; otherwise only that row's status changes; a table meeting the invariant still meets it |
| `Requests.DeleteSelected` | Backend/server.js:142-152 | rows are deleted iff `ids` is a non-empty list; only existing rows can go and the sequence never changes |
| `Requests.DeleteSelectedOutcomes` | Backend/server.js:142-152 | on any table: a missing or empty id list is refused and changes nothing; otherwise exactly the listed rows go, the rest are unchanged, and the count equals the number of rows removed; a table meeting the invariant still meets it |
| `Requests.ClearAll` | Backend/server.js:162 | no rows remain and the id sequence is untouched |
| `Requests.ClearAllOutcomes` | Backend/server.js:162 | on any table, clearing is idempotent; a table meeting the invariant still meets it |
| `Requests.Select` | Backend/server.js:103-105 | the SELECT returns exactly the rows that satisfy the WHERE clause, unchanged |
| `Requests.Listed` | Backend/server.js:92-101 | a row is listed iff it matches the WHERE clause the handler builds: a status filter only for a non-empty status other than `all`, a name filter only for a non-empty search |
| `Requests.SelectIsConjunction` | Backend/server.js:92-101 | filtering by status and name equals filtering by status, then by name (the filters compose with AND) |
| `Requests.ListAfterClearIsEmpty` | Backend/server.js:162 | after clearing, every listing is empty |
| `Store.RequestStore.constructor` | Backend/server.js:8-14 | a new store is an empty table that satisfies the invariant |
| `Store.RequestStore.Submit` | Backend/server.js:33-83 | the new rows and outcome are those of `Requests.Submit`; a rejection changes nothing; an accepted submission adds exactly one row; the invariant is kept |
| `Store.RequestStore.Insert` | Backend/server.js:72-76 | the INSERT puts the row under the next id and advances the sequence; the invariant is kept when the row is valid and its key is new |
| `Store.RequestStore.List` | Backend/server.js:87-110 | returns exactly the rows passing the status filter (only when status is non-empty and not `all`) and the case-insensitive name search (only when search is non-empty), unchanged; the table is not modified |
| `Store.RequestStore.UpdateStatus` | Backend/server.js:113-136 | the new rows and outcome are those of `Requests.UpdateStatus`; ids and every other row stay as they were; the invariant is kept |
| `Store.RequestStore.DeleteSelected` | Backend/server.js:139-157 | the new rows and outcome are those of `Requests.DeleteSelected`; the count equals the number of rows removed; surviving rows are unchanged |
| `Store.RequestStore.ClearAll` | Backend/server.js:160-168 | the table becomes empty with its id sequence kept; the invariant is kept |
| `Scenarios.SubmitToEmpty` | Backend/server.js:33-76 | an accepted submission to an empty table becomes its only row, row 1, `Pending` |
| `Scenarios.ApproveOnlyRow` | Backend/server.js:92-131 | approving the only row makes it `Approved`; listing by `Approved` returns it, listing by `Pending` returns nothing |
| `Scenarios.SubmitApproveList` | Backend/server.js:33-131 | an accepted submission to an empty table becomes row 1, `Pending`; approving it makes it `Approved`; listing by `Approved` returns it and by `Pending` returns nothing |
| `Scenarios.LaptopScenario` | Backend/server.js:33-131 | the walkthrough's laptop request for employee ATS0123, dated today, is created `Pending` and is listed under `Approved` after approval |
| `Scenarios.AsWrittenStoresRepeatTwice` | Backend/server.js:63-76 | as written, a valid `Other` request whose name has white space at an end is stored twice when submitted twice, breaking uniqueness |
| `Scenarios.ChairStoredTwice` | Backend/server.js:63-76 | as written, submitting `Chair ` twice leaves two rows with the same key |
| `Scenarios.ChairRefusedOnRepeat` | Backend/server.js:63-70 | with the corrected query, the second `Chair ` submission is a duplicate |

## Left out

- HTTP routing, middleware, CORS, static files, `app.listen`, status codes and message texts. Outcomes are datatypes. The duplicate outcome keeps the asset name the message reports.
- The PostgreSQL connection pool, its credentials, and the `500` paths for storage failures, which are caught, logged and reported. These are foreign I/O.
- JavaScript `Date` parsing and time zones. `new Date(str)` reads a date as UTC, while "today" is local midnight. `setMonth` overflows at month ends. Dates are day numbers; "today" and the two-month bound are parameters. An unparseable or missing date is `None`, which fails the check as `Invalid Date` does.
- Body fields that are JSON numbers, arrays or objects rather than strings. The model takes each field as a string or nothing.
- Ids other than integers. The model takes an integer `:id` and a list of integer `ids`. It leaves out a non-numeric `:id`, and elements of `ids` that are numeral strings (sent to the database as an array literal, so `"3"` selects row 3), `null` (which matches no row) or fractions.
- `ILIKE` treats `%` and `_` in the search text as wildcards and `\` as its escape character, and folds non-ASCII case by locale. The model matches the search as a plain substring with ASCII case folding.
- The race between the duplicate check and the insert under concurrent submissions. The model is sequential.
- Row order of the list result. The result is the set of matching rows, keyed by id.
- `request_date` is stored as the submitted string; the model stores its day number.
- Store.RequestStore.Submit: uses the corrected duplicate query (see Findings), not the query as written. The handler exactly as written is `Requests.SubmitAsWritten`.

## Findings

| source | as written | input that shows it | evidently intended | confidence | as-written member | corrected member |
|---|---|---|---|---|---|---|
| Backend/server.js:63-75 | the duplicate query gets the raw `otherAssetName`, but the insert stores `otherAssetName.trim()` | type `Other` with other-asset name `Chair ` (trailing space), submitted twice: both inserts succeed (no unique constraint on those columns) and two rows hold `Chair` | the duplicate query compares the trimmed name, so the repeat is refused and no two rows share employee, type and name | high (not executed) | `Scenarios.AsWrittenStoresRepeatTwice` | `Requests.ResubmitIsDuplicate` |

=== FILE: jstext.dfy ===
/**
 The JavaScript string operations the request handlers rely on: `trim()`,
 `length` (UTF-16 code units), the regex classes `\s`, `\d`, `[A-Za-z]`, and
 the case-insensitive substring match that `ILIKE '%text%'` performs.
 */
module JsText {

  /** ECMAScript WhiteSpace and LineTerminator code points: what `trim()` strips and `\s` matches. */
  predicate IsSpace(c: char) {
    || c == '\t' || c == '\n' || c == '\U{B}' || c == '\U{C}' || c == '\r' || c == ' '
    || c == '\U{A0}' || c == '\U{1680}' || ('\U{2000}' <= c <= '\U{200A}')
    || c == '\U{2028}' || c == '\U{2029}' || c == '\U{202F}' || c == '\U{205F}'
    || c == '\U{3000}' || c == '\U{FEFF}'
  }

  predicate IsDigit(c: char) { '0' <= c <= '9' }

  predicate IsAsciiLetter(c: char) { 'A' <= c <= 'Z' || 'a' <= c <= 'z' }

  predicate AllSpace(s: string) { forall i :: 0 <= i < |s| ==> IsSpace(s[i]) }

  /** Neither end of `s` is white space: what `trim()` leaves. */
  predicate IsTrimmed(s: string) { s == [] || (!IsSpace(s[0]) && !IsSpace(s[|s| - 1])) }

  /** Drops the leading white space: the remainder is a suffix of `s` that does not start with a space. */
  function TrimStart(s: string): (r: string)
    ensures |r| <= |s| && r == s[|s| - |r|..]
    ensures AllSpace(s[..|s| - |r|])
    ensures r == [] || !IsSpace(r[0])
  {
    if |s| > 0 && IsSpace(s[0]) then
      var r := TrimStart(s[1..]);
      assert s[..|s| - |r|] == [s[0]] + s[1..][..|s| - 1 - |r|];
      r
    else s
  }

  /** Drops the trailing white space: the remainder is a prefix of `s` that does not end with a space. */
  function TrimEnd(s: string): (r: string)
    ensures |r| <= |s| && r == s[..|r|]
    ensures AllSpace(s[|r|..])
    ensures r == [] || !IsSpace(r[|r| - 1])
  {
    if |s| > 0 && IsSpace(s[|s| - 1]) then
      var r := TrimEnd(s[..|s| - 1]);
      assert s[|r|..] == s[..|s| - 1][|r|..] + [s[|s| - 1]];
      r
    else s
  }

  /** `String.prototype.trim`: the middle of `s` between its leading and its trailing white space. */
  function Trim(s: string): (r: string)
    ensures IsTrimmed(r)
    ensures |r| <= |TrimStart(s)| <= |s|
  {
    TrimEnd(TrimStart(s))
  }

  lemma {:induction false} TrimStartOfPadded(p: string, m: string)
    requires AllSpace(p)
    requires m == [] || !IsSpace(m[0])
    ensures TrimStart(p + m) == m
  {
    if p != [] {
      assert (p + m)[1..] == p[1..] + m;
      TrimStartOfPadded(p[1..], m);
    } else {
      assert p + m == m;
    }
  }

  lemma {:induction false} TrimEndOfPadded(m: string, q: string)
    requires AllSpace(q)
    requires m == [] || !IsSpace(m[|m| - 1])
    ensures TrimEnd(m + q) == m
  {
    if q != [] {
      var q' := q[..|q| - 1];
      assert (m + q)[..|m + q| - 1] == m + q';
      TrimEndOfPadded(m, q');
    } else {
      assert m + q == m;
    }
  }

  /**
   Independent characterisation of `trim()`: padding a trimmed string with
   white space on either side and trimming gives the string back.
   */
  lemma TrimOfPadded(p: string, m: string, q: string)
    requires AllSpace(p) && AllSpace(q) && IsTrimmed(m)
    ensures Trim(p + m + q) == m
  {
    if m == [] {
      assert p + m + q == p + q;
      TrimStartOfPadded(p + q, []);
      assert p + q + [] == p + q;
    } else {
      assert p + m + q == p + (m + q);
      TrimStartOfPadded(p, m + q);
      TrimEndOfPadded(m, q);
    }
  }

  /** Text with no white space at either end is its own trim. */
  lemma TrimOfTrimmed(s: string)
    requires IsTrimmed(s)
    ensures Trim(s) == s
  {
    TrimStartOfPadded([], s);
    assert [] + s == s;
    TrimEndOfPadded(s, []);
    assert s + [] == s;
  }

  /** Trimming twice is trimming once. */
  lemma TrimIdempotent(s: string)
    ensures Trim(Trim(s)) == Trim(s)
  {
    var r := Trim(s);
    TrimStartOfPadded([], r);
    assert [] + r == r;
    TrimEndOfPadded(r, []);
    assert r + [] == r;
  }

  /** A slice of text made of letters and white space is made of letters and white space. */
  lemma SliceOfLettersAndSpaces(s: string, a: int, b: int)
    requires 0 <= a <= b <= |s|
    requires forall i :: 0 <= i < |s| ==> IsAsciiLetter(s[i]) || IsSpace(s[i])
    ensures forall i :: 0 <= i < b - a ==> IsAsciiLetter(s[a..b][i]) || IsSpace(s[a..b][i])
  {
    forall i | 0 <= i < b - a ensures IsAsciiLetter(s[a..b][i]) || IsSpace(s[a..b][i]) {
      assert s[a..b][i] == s[a + i];
    }
  }

  /** The value of `length` in JavaScript: one UTF-16 code unit per BMP character, two per other character. */
  function Utf16Length(s: string): (n: nat)
    ensures |s| <= n <= 2 * |s|
  {
    if s == [] then 0
    else (if (s[0] as int) < 0x1_0000 then 1 else 2) + Utf16Length(s[1..])
  }

  /** Text made only of BMP characters is as long in JavaScript as it has characters. */
  lemma {:induction false} BmpTextLength(s: string)
    requires forall i :: 0 <= i < |s| ==> (s[i] as int) < 0x1_0000
    ensures Utf16Length(s) == |s|
  {
    if s != [] {
      assert forall i :: 0 <= i < |s[1..]| ==> s[1..][i] == s[i + 1];
      BmpTextLength(s[1..]);
    }
  }

  /** A character beyond U+FFFF is a surrogate pair: two code units; any other character is one. */
  lemma Utf16LengthOfChar(c: char)
    ensures Utf16Length([c]) == if (c as int) < 0x1_0000 then 1 else 2
  {
    assert [c][1..] == [];
  }

  /** The `length` of joined text is the sum of the lengths of its parts. */
  lemma {:induction false} Utf16LengthOfConcat(a: string, b: string)
    ensures Utf16Length(a + b) == Utf16Length(a) + Utf16Length(b)
  {
    if a == [] {
      assert a + b == b;
    } else {
      assert (a + b)[1..] == a[1..] + b;
      Utf16LengthOfConcat(a[1..], b);
    }
  }

  /** ASCII case folding, as `ILIKE` does for ASCII letters. */
  function LowerChar(c: char): (d: char)
    ensures IsAsciiLetter(c) ==> 'a' <= d <= 'z'
    ensures 'A' <= c <= 'Z' ==> (d as int) - ('a' as int) == (c as int) - ('A' as int)
    ensures !('A' <= c <= 'Z') ==> d == c
  {
    if 'A' <= c <= 'Z' then ((c as int) + 32) as char else c
  }

  function Lower(s: string): (r: string)
    ensures |r| == |s|
    ensures forall i :: 0 <= i < |s| ==> r[i] == LowerChar(s[i])
  {
    if s == [] then [] else [LowerChar(s[0])] + Lower(s[1..])
  }

  predicate OccursAt(needle: string, hay: string, i: int) {
    0 <= i && i + |needle| <= |hay| && hay[i..i + |needle|] == needle
  }

  predicate IsSubstring(needle: string, hay: string) {
    exists i | 0 <= i <= |hay| - |needle| :: OccursAt(needle, hay, i)
  }

  /** `hay ILIKE '%needle%'` for a needle without wildcard characters. */
  predicate ContainsIgnoringCase(hay: string, needle: string) {
    IsSubstring(Lower(needle), Lower(hay))
  }

  /** Folding the search text first changes nothing: the match ignores case on both sides. */
  lemma ContainsIgnoresNeedleCase(hay: string, needle: string)
    ensures ContainsIgnoringCase(hay, Lower(needle)) == ContainsIgnoringCase(hay, needle)
  {
    assert Lower(Lower(needle)) == Lower(needle);
  }
}

=== FILE: options.dfy ===
/** A value a JSON body or query string may or may not carry. */
module Options {
  datatype Option<T> = None | Some(value: T)
}

=== FILE: requests.dfy ===
/**
 The `asset_requests` table and what each handler's SQL does to it, as
 functions from the table before to the table after and the handler's
 outcome. The class in module Store runs these step by step; the lemmas here
 state what the handlers promise about them.
 */
module Requests {
  import opened Options
  import opened JsText
  import opened Validation

  datatype Status = Pending | Approved | Rejected

  /** The text the `status` column holds. */
  function StatusText(st: Status): (text: string) {
    match st
    case Pending => "Pending"
    case Approved => "Approved"
    case Rejected => "Rejected"
  }

  /** The update handler's status check: only the texts `Approved` and `Rejected` are accepted. */
  function ParseNewStatus(text: Option<string>): (r: Option<Status>)
    ensures r.Some? ==> r.value != Pending && text == Some(StatusText(r.value))
    ensures r.None? ==> forall st :: st != Pending ==> text != Some(StatusText(st))
  {
    if text == Some("Approved") then Some(Approved)
    else if text == Some("Rejected") then Some(Rejected)
    else None
  }

  /** One row of `asset_requests`; `otherAssetName` is SQL NULL when `None`. */
  datatype AssetRequest = AssetRequest(
    id: int,
    employeeName: string,
    employeeId: string,
    assetType: string,
    otherAssetName: Option<string>,
    reason: string,
    requestDate: int,
    status: Status)

  /** The rows keyed by id, and the next value of the id sequence. */
  datatype Table = Table(rows: map<int, AssetRequest>, nextId: int)

  /** An empty table whose id sequence has not been used yet. */
  const EmptyTable := Table(map[], 1)

  /** Ids are the keys of their rows and were all drawn from the sequence before `nextId`. */
  predicate WellFormed(t: Table) {
    && 1 <= t.nextId
    && forall id :: id in t.rows ==> 1 <= id < t.nextId && t.rows[id].id == id
  }

  /** A row as the submit handler stores it: trimmed text within the length bounds the chain checked. */
  predicate StoredRequestOk(r: AssetRequest) {
    && IsTrimmed(r.employeeName) && 5 <= Utf16Length(r.employeeName) <= 40
    && EmployeeIdOk(Some(r.employeeId))
    && r.assetType != ""
    && (if r.assetType == "Other" then
          && r.otherAssetName.Some?
          && IsTrimmed(r.otherAssetName.value)
          && LettersAndSpaces(r.otherAssetName.value)
          && 3 <= Utf16Length(r.otherAssetName.value) <= 30
        else r.otherAssetName.None?)
    && IsTrimmed(r.reason) && 5 <= Utf16Length(r.reason) <= 300
  }

  /** What makes two requests the same: employee, asset type, and the asset's name when the type is `Other`. */
  function Key(r: AssetRequest): (key: (string, string, Option<string>)) {
    (r.employeeId, r.assetType, if r.assetType == "Other" then r.otherAssetName else None)
  }

  /** No two rows are requests for the same asset by the same employee. */
  predicate NoDuplicates(rows: map<int, AssetRequest>) {
    forall i, j :: i in rows && j in rows && i != j ==> Key(rows[i]) != Key(rows[j])
  }

  /** The invariant every handler keeps. */
  predicate Inv(t: Table) {
    && WellFormed(t)
    && (forall id :: id in t.rows ==> StoredRequestOk(t.rows[id]))
    && NoDuplicates(t.rows)
  }

  lemma EmptyTableInv()
    ensures Inv(EmptyTable)
  {
  }

  // ----- submit -----

  datatype SubmitOutcome =
    | Created(request: AssetRequest)
    | Invalid(check: Check)
    | Duplicate(assetName: string)

  /** Every field the insert reads is present: what the chain guarantees before the insert runs. */
  predicate Complete(s: Submission) {
    && s.employeeName.Some? && s.employeeId.Some? && s.assetType.Some?
    && (s.assetType.value == "Other" ==> s.otherAssetName.Some?)
    && s.reason.Some? && s.requestDate.Some?
  }

  /** The row the insert writes: trimmed name and reason, the other-asset name (trimmed) only for `Other`, status `Pending`. */
  function NewRecord(s: Submission, id: int): (r: AssetRequest)
    requires Complete(s)
    ensures r.id == id && r.status == Pending
  {
    var other := if s.assetType.value == "Other" then Some(Trim(s.otherAssetName.value)) else None;
    AssetRequest(id, Trim(s.employeeName.value), s.employeeId.value, s.assetType.value,
                 other, Trim(s.reason.value), s.requestDate.value, Pending)
  }

  /**
   The row written for a submission that passed the chain meets the
   stored-row constraints: trimmed text within the bounds that were checked,
   and an other-asset name of letters and white space exactly when the type
   is `Other`.
   */
  lemma NewRecordIsStorable(s: Submission, id: int)
    requires NameOk(s.employeeName) && EmployeeIdOk(s.employeeId) && AssetTypeOk(s.assetType)
    requires OtherAssetNameOk(s.assetType, s.otherAssetName) && ReasonOk(s.reason)
    requires s.requestDate.Some?
    ensures StoredRequestOk(NewRecord(s, id))
  {
    if s.assetType.value == "Other" {
      TrimmedLettersAndSpaces(s.otherAssetName.value);
    }
  }

  /**
   The duplicate query `employee_id = $1 AND asset_type = $2 AND ($3 IS NULL
   OR other_asset_name = $3)` on one row.
   */
  predicate MatchesDuplicateQuery(r: AssetRequest, employeeId: string, assetType: string, other: Option<string>) {
    r.employeeId == employeeId && r.assetType == assetType && (other.None? || r.otherAssetName == other)
  }

  predicate HasDuplicate(rows: map<int, AssetRequest>, employeeId: string, assetType: string, other: Option<string>) {
    exists id | id in rows :: MatchesDuplicateQuery(rows[id], employeeId, assetType, other)
  }

  /** The asset the duplicate message names: the submitted other-asset name for `Other`, else the type. */
  function DuplicateName(s: Submission): (name: string)
    requires s.assetType.Some? && (s.assetType.value == "Other" ==> s.otherAssetName.Some?)
  {
    if s.assetType.value == "Other" then s.otherAssetName.value else s.assetType.value
  }

  function Insert(t: Table, r: AssetRequest): (t': Table) {
    Table(t.rows[t.nextId := r], t.nextId + 1)
  }

  /**
   The submit handler as written: the duplicate query is given the
   other-asset name exactly as submitted, while the insert stores it trimmed.
   */
  function SubmitAsWritten(t: Table, s: Submission, today: int, latest: int): (result: (Table, SubmitOutcome))
    ensures result.1.Invalid? <==> Validate(s, today, latest).Some?
    ensures result.1.Invalid? ==> result.1.check == Validate(s, today, latest).value
    ensures !result.1.Created? ==> result.0 == t
    ensures result.1.Created? ==>
      && result.0 == Insert(t, result.1.request)
      && result.1.request.id == t.nextId && result.1.request.status == Pending
    ensures result.1.Created? ==> Complete(s) && result.1.request == NewRecord(s, t.nextId)
    ensures result.1.Duplicate? ==>
      result.1.assetName == if s.assetType.value == "Other" then s.otherAssetName.value else s.assetType.value
    ensures Validate(s, today, latest).None? ==>
      (result.1.Duplicate? <==> exists id | id in t.rows ::
         Key(t.rows[id]) == (s.employeeId.value, s.assetType.value,
                             if s.assetType.value == "Other" then s.otherAssetName else None))
  {
    match Validate(s, today, latest)
    case Some(c) => (t, Invalid(c))
    case None =>
      ValidatedFields(s, today, latest);
      RawQueryFindsKey(t.rows, s);
      var probe := if s.assetType.value == "Other" then s.otherAssetName else None;
      if HasDuplicate(t.rows, s.employeeId.value, s.assetType.value, probe) then (t, Duplicate(DuplicateName(s)))
      else
        var r := NewRecord(s, t.nextId);
        (Insert(t, r), Created(r))
  }

  /**
   The duplicate query as written, given the raw other-asset name, finds a
   row exactly when some row has the submitted employee, type and, for
   `Other`, that raw name.
   */
  lemma RawQueryFindsKey(rows: map<int, AssetRequest>, s: Submission)
    requires Complete(s)
    ensures var probe := if s.assetType.value == "Other" then s.otherAssetName else None;
      (HasDuplicate(rows, s.employeeId.value, s.assetType.value, probe)
       <==> exists id | id in rows :: Key(rows[id]) == (s.employeeId.value, s.assetType.value, probe))
  {
    var probe := if s.assetType.value == "Other" then s.otherAssetName else None;
    forall id | id in rows
      ensures MatchesDuplicateQuery(rows[id], s.employeeId.value, s.assetType.value, probe)
              <==> Key(rows[id]) == (s.employeeId.value, s.assetType.value, probe)
    {
    }
  }

  /** The other-asset name the corrected duplicate query is given: the trimmed name that the insert stores. */
  function DuplicateProbe(s: Submission): (probe: Option<string>)
    requires s.assetType.Some? && (s.assetType.value == "Other" ==> s.otherAssetName.Some?)
  {
    if s.assetType.value == "Other" then Some(Trim(s.otherAssetName.value)) else None
  }

  /** The submit handler with the duplicate query given the trimmed other-asset name. */
  function Submit(t: Table, s: Submission, today: int, latest: int): (result: (Table, SubmitOutcome))
    ensures result.1.Invalid? <==> Validate(s, today, latest).Some?
    ensures !result.1.Created? ==> result.0 == t
    ensures result.1.Created? ==>
      && result.0 == Insert(t, result.1.request)
      && result.1.request.id == t.nextId && result.1.request.status == Pending
  {
    match Validate(s, today, latest)
    case Some(c) => (t, Invalid(c))
    case None =>
      ValidatedFields(s, today, latest);
      if HasDuplicate(t.rows, s.employeeId.value, s.assetType.value, DuplicateProbe(s)) then
        (t, Duplicate(DuplicateName(s)))
      else
        var r := NewRecord(s, t.nextId);
        (Insert(t, r), Created(r))
  }

  /**
   The handler as written and the corrected one agree on every request
   except one of type `Other` whose name has white space at an end: only
   there do the raw and the trimmed name differ.
   */
  lemma AsWrittenAgreesUnlessPadded(t: Table, s: Submission, today: int, latest: int)
    requires s.assetType == Some("Other") && s.otherAssetName.Some? ==> IsTrimmed(s.otherAssetName.value)
    ensures SubmitAsWritten(t, s, today, latest) == Submit(t, s, today, latest)
  {
    match Validate(s, today, latest)
    case Some(_) =>
    case None =>
      ValidatedFields(s, today, latest);
      RawProbeOfTrimmedName(s);
  }

  /**
   As written, a valid `Other` request whose name has white space at an end
   is never a duplicate on a table whose rows are all stored rows, even one
   that already holds duplicates: every stored name is trimmed, so none
   equals the raw name the query is given.
   */
  lemma PaddedNameNeverDuplicate(t: Table, s: Submission, today: int, latest: int)
    requires forall id | id in t.rows :: StoredRequestOk(t.rows[id])
    requires Validate(s, today, latest).None?
    requires s.assetType == Some("Other") && s.otherAssetName.Some? && !IsTrimmed(s.otherAssetName.value)
    ensures SubmitAsWritten(t, s, today, latest).1.Created?
  {
    ValidatedFields(s, today, latest);
    forall id | id in t.rows
      ensures !MatchesDuplicateQuery(t.rows[id], s.employeeId.value, "Other", s.otherAssetName)
    {
      StoredRowMissesPaddedName(t.rows[id], s.employeeId.value, s.otherAssetName.value);
    }
  }

  /** A stored `Other` row holds a trimmed name, so a query for a padded name never matches it. */
  lemma StoredRowMissesPaddedName(row: AssetRequest, employeeId: string, name: string)
    requires StoredRequestOk(row) && !IsTrimmed(name)
    ensures !MatchesDuplicateQuery(row, employeeId, "Other", Some(name))
  {
    if row.assetType == "Other" {
      assert IsTrimmed(row.otherAssetName.value);
    }
  }

  /** For a name with no white space at either end, the raw and the trimmed name give the same duplicate query. */
  lemma RawProbeOfTrimmedName(s: Submission)
    requires s.assetType.Some? && (s.assetType.value == "Other" ==> s.otherAssetName.Some?)
    requires s.assetType.value == "Other" ==> IsTrimmed(s.otherAssetName.value)
    ensures DuplicateProbe(s) == if s.assetType.value == "Other" then s.otherAssetName else None
  {
    if s.assetType.value == "Other" {
      TrimOfTrimmed(s.otherAssetName.value);
    }
  }

  /**
   The duplicate query, given the trimmed other-asset name, finds a row
   exactly when some row has the key of the row the insert would write.
   */
  lemma DuplicateQueryFindsKey(t: Table, s: Submission)
    requires Complete(s)
    ensures HasDuplicate(t.rows, s.employeeId.value, s.assetType.value, DuplicateProbe(s))
        <==> exists id | id in t.rows :: Key(t.rows[id]) == Key(NewRecord(s, t.nextId))
  {
    forall id | id in t.rows
      ensures MatchesDuplicateQuery(t.rows[id], s.employeeId.value, s.assetType.value, DuplicateProbe(s))
              <==> Key(t.rows[id]) == Key(NewRecord(s, t.nextId))
    {
      QueryMatchesKey(t.rows[id], s, t.nextId);
    }
  }

  /** One row matches the corrected duplicate query exactly when it has the key of the row the insert would write. */
  lemma QueryMatchesKey(row: AssetRequest, s: Submission, id: int)
    requires Complete(s)
    ensures MatchesDuplicateQuery(row, s.employeeId.value, s.assetType.value, DuplicateProbe(s))
        <==> Key(row) == Key(NewRecord(s, id))
  {
    if s.assetType.value == "Other" {
      assert DuplicateProbe(s) == NewRecord(s, id).otherAssetName;
    }
  }

  /**
   The submit handler rejects exactly when the chain fails (with its first
   failing check) or an existing row has the key of the request it would
   store; a rejection leaves the table as it was, and otherwise exactly one
   row is added under a fresh id, with status `Pending` and trimmed text.
   */
  lemma SubmitOutcomes(t: Table, s: Submission, today: int, latest: int)
    requires WellFormed(t)
    ensures var (t', out) := Submit(t, s, today, latest);
      && (out.Invalid? <==> Validate(s, today, latest).Some?)
      && (out.Invalid? ==> out.check == Validate(s, today, latest).value)
      && (!out.Created? ==> t' == t)
      && (Validate(s, today, latest).None? ==>
            (out.Duplicate? <==> exists id | id in t.rows :: Key(t.rows[id]) == Key(NewRecord(s, t.nextId))))
      && (out.Duplicate? ==>
            out.assetName == if s.assetType.value == "Other" then s.otherAssetName.value else s.assetType.value)
      && (out.Created? ==>
            && t.nextId !in t.rows
            && out.request.id == t.nextId
            && out.request.status == Pending
            && out.request == NewRecord(s, t.nextId)
            && out.request.employeeName == Trim(s.employeeName.value)
            && out.request.employeeId == s.employeeId.value
            && out.request.assetType == s.assetType.value
            && out.request.otherAssetName
                 == (if s.assetType.value == "Other" then Some(Trim(s.otherAssetName.value)) else None)
            && out.request.reason == Trim(s.reason.value)
            && out.request.requestDate == s.requestDate.value
            && IsTrimmed(out.request.employeeName) && IsTrimmed(out.request.reason)
            && t'.rows == t.rows[t.nextId := out.request]
            && t'.nextId > t.nextId)
  {
    if Validate(s, today, latest).None? {
      ValidatedFields(s, today, latest);
      DuplicateQueryFindsKey(t, s);
    }
  }

  /** Adding a row that meets the stored-row constraints, under the next id and with a key no row has, keeps the invariant. */
  lemma InsertKeepsInv(t: Table, r: AssetRequest)
    requires Inv(t) && StoredRequestOk(r) && r.id == t.nextId
    requires forall id | id in t.rows :: Key(t.rows[id]) != Key(r)
    ensures Inv(Insert(t, r))
  {
    var t' := Insert(t, r);
    forall i, j | i in t'.rows && j in t'.rows && i != j
      ensures Key(t'.rows[i]) != Key(t'.rows[j])
    {
      if i == t.nextId {
        assert j in t.rows;
      } else if j == t.nextId {
        assert i in t.rows;
      }
    }
  }

  /** A successful submission keeps the invariant; so does a rejected one, which changes nothing. */
  lemma SubmitKeepsInv(t: Table, s: Submission, today: int, latest: int)
    requires Inv(t)
    ensures Inv(Submit(t, s, today, latest).0)
  {
    if Validate(s, today, latest).None? {
      ValidatedFields(s, today, latest);
      var r := NewRecord(s, t.nextId);
      NewRecordIsStorable(s, t.nextId);
      DuplicateQueryFindsKey(t, s);
      if !HasDuplicate(t.rows, s.employeeId.value, s.assetType.value, DuplicateProbe(s)) {
        InsertKeepsInv(t, r);
      }
    }
  }

  /** Submitting the same request twice: the second submission is reported as a duplicate and changes nothing. */
  lemma ResubmitIsDuplicate(t: Table, s: Submission, today: int, latest: int)
    requires Submit(t, s, today, latest).1.Created?
    ensures var t1 := Submit(t, s, today, latest).0;
      Submit(t1, s, today, latest).1.Duplicate? && Submit(t1, s, today, latest).0 == t1
  {
    ValidatedFields(s, today, latest);
    var r := NewRecord(s, t.nextId);
    var t1 := Submit(t, s, today, latest).0;
    assert t1 == Insert(t, r);
    assert MatchesDuplicateQuery(t1.rows[t.nextId], s.employeeId.value, s.assetType.value, DuplicateProbe(s));
  }

  // ----- update status -----

  datatype UpdateOutcome = Updated(request: AssetRequest) | InvalidStatus | NotFound

  /** `UPDATE asset_requests SET status = $1 WHERE id = $2`, after the status check. */
  function UpdateStatus(t: Table, id: int, text: Option<string>): (result: (Table, UpdateOutcome))
    ensures result.1.Updated? <==> ParseNewStatus(text).Some? && id in t.rows
    ensures result.0.nextId == t.nextId && result.0.rows.Keys == t.rows.Keys
  {
    match ParseNewStatus(text)
    case None => (t, InvalidStatus)
    case Some(st) =>
      if id !in t.rows then (t, NotFound)
      else
        var r := t.rows[id].(status := st);
        (Table(t.rows[id := r], t.nextId), Updated(r))
  }

  /** Changing one row's status keeps the invariant: the status takes part in no constraint and in no key. */
  lemma SetStatusKeepsInv(t: Table, id: int, st: Status)
    requires Inv(t) && id in t.rows
    ensures Inv(Table(t.rows[id := t.rows[id].(status := st)], t.nextId))
  {
    var t' := Table(t.rows[id := t.rows[id].(status := st)], t.nextId);
    forall i, j | i in t'.rows && j in t'.rows && i != j
      ensures Key(t'.rows[i]) != Key(t'.rows[j])
    {
      assert Key(t'.rows[i]) == Key(t.rows[i]) && Key(t'.rows[j]) == Key(t.rows[j]);
    }
  }

  /**
   A status other than `Approved` or `Rejected` is refused, an unknown id is
   not found, and both leave the table alone; otherwise only that row's
   status changes, to the requested one.
   */
  lemma UpdateStatusOutcomes(t: Table, id: int, text: Option<string>)
    ensures var (t', out) := UpdateStatus(t, id, text);
      && (out.InvalidStatus? <==> text != Some("Approved") && text != Some("Rejected"))
      && (out.NotFound? <==> !out.InvalidStatus? && id !in t.rows)
      && (!out.Updated? ==> t' == t)
      && (out.Updated? ==>
            && t'.rows.Keys == t.rows.Keys && t'.nextId == t.nextId
            && out.request == t'.rows[id]
            && text == Some(StatusText(out.request.status))
            && out.request == t.rows[id].(status := out.request.status)
            && (forall k :: k in t.rows && k != id ==> t'.rows[k] == t.rows[k]))
      && (Inv(t) ==> Inv(t'))
  {
    var st := ParseNewStatus(text);
    if st.Some? && id in t.rows && Inv(t) {
      SetStatusKeepsInv(t, id, st.value);
    }
  }

  // ----- delete selected -----

  datatype DeleteOutcome = NoIds | Deleted(count: nat)

  /**
   `DELETE FROM asset_requests WHERE id = ANY($1)`: `ids` is `None` when the
   body's `ids` is not an array. The count is the number of rows the
   statement matched.
   */
  function DeleteSelected(t: Table, ids: Option<seq<int>>): (result: (Table, DeleteOutcome))
    ensures result.1.Deleted? <==> ids.Some? && ids.value != []
    ensures result.0.nextId == t.nextId && result.0.rows.Keys <= t.rows.Keys
  {
    if ids.None? || |ids.value| == 0 then (t, NoIds)
    else
      var kept := map id | id in t.rows && id !in ids.value :: t.rows[id];
      var matched := set id | id in t.rows && id in ids.value;
      (Table(kept, t.nextId), Deleted(|matched|))
  }

  /**
   An empty or missing id list is refused and changes nothing; otherwise
   exactly the rows whose id is listed are removed, the others are kept as
   they were, and the count is the number of rows removed.
   */
  lemma DeleteSelectedOutcomes(t: Table, ids: Option<seq<int>>)
    ensures var (t', out) := DeleteSelected(t, ids);
      && (out.NoIds? <==> ids.None? || ids.value == [])
      && (out.NoIds? ==> t' == t)
      && (out.Deleted? ==>
            && (forall id :: id in t'.rows <==> id in t.rows && id !in ids.value)
            && (forall id :: id in t'.rows ==> t'.rows[id] == t.rows[id])
            && t'.nextId == t.nextId
            && out.count == |t.rows| - |t'.rows|)
      && (Inv(t) ==> Inv(t'))
  {
    var (t', out) := DeleteSelected(t, ids);
    if out.Deleted? {
      var listed := set id | id in ids.value;
      assert t'.rows.Keys == t.rows.Keys - listed;
      assert (set id | id in t.rows && id in ids.value) == t.rows.Keys * listed;
    }
  }

  // ----- clear all -----

  /** `DELETE FROM asset_requests`: every row goes; the id sequence is not reset. */
  function ClearAll(t: Table): (t': Table)
    ensures t'.rows == map[] && t'.nextId == t.nextId
  {
    Table(map[], t.nextId)
  }

  /** Clearing keeps the invariant, and clearing a cleared table changes nothing. */
  lemma ClearAllOutcomes(t: Table)
    ensures Inv(t) ==> Inv(ClearAll(t))
    ensures ClearAll(ClearAll(t)) == ClearAll(t)
  {
  }

  // ----- list -----

  /**
   The rows the list handler returns: filtered by status unless the status
   is absent, empty or `all`, and by employee name when a search text is given.
   */
  predicate Listed(r: AssetRequest, status: Option<string>, search: Option<string>): (listed: bool)
    ensures listed <==> RowMatches(r, Query(
      if Truthy(status) && status.value != "all" then status else None,
      if Truthy(search) then search else None))
  {
    && (Truthy(status) && status.value != "all" ==> StatusText(r.status) == status.value)
    && (Truthy(search) ==> ContainsIgnoringCase(r.employeeName, search.value))
  }

  /** The WHERE clause the list handler builds: each filter is present or not. */
  datatype Query = Query(status: Option<string>, namePattern: Option<string>)

  predicate RowMatches(r: AssetRequest, q: Query) {
    && (q.status.Some? ==> StatusText(r.status) == q.status.value)
    && (q.namePattern.Some? ==> ContainsIgnoringCase(r.employeeName, q.namePattern.value))
  }

  /** The rows a SELECT with that WHERE clause returns, keyed by id (the order of the rows is not modelled). */
  function Select(rows: map<int, AssetRequest>, q: Query): (result: map<int, AssetRequest>)
    ensures result.Keys <= rows.Keys
    ensures forall id :: id in result ==> result[id] == rows[id] && RowMatches(rows[id], q)
    ensures forall id :: id in rows && RowMatches(rows[id], q) ==> id in result
  {
    map id | id in rows && RowMatches(rows[id], q) :: rows[id]
  }

  /** The two filters compose with AND: filtering by both is filtering by status, then by name. */
  lemma SelectIsConjunction(rows: map<int, AssetRequest>, status: Option<string>, pattern: Option<string>)
    ensures Select(rows, Query(status, pattern)) == Select(Select(rows, Query(status, None)), Query(None, pattern))
  {
    var both, first := Select(rows, Query(status, pattern)), Select(rows, Query(status, None));
    var second := Select(first, Query(None, pattern));
    forall id | id in rows ensures id in both <==> id in second {
      assert RowMatches(rows[id], Query(status, pattern))
         <==> RowMatches(rows[id], Query(status, None)) && RowMatches(rows[id], Query(None, pattern));
    }
    assert both.Keys == second.Keys;
  }

  /** After clearing, every listing is empty. */
  lemma ListAfterClearIsEmpty(t: Table, q: Query)
    ensures Select(ClearAll(t).rows, q) == map[]
  {
  }
}

=== FILE: scenarios.dfy ===
/**
 Proofs about sequences of handler calls: the submit, approve and list
 walkthrough of the service, and the repeated submission that the duplicate
 query as written lets through.
 */
module Scenarios {
  import opened Options
  import opened JsText
  import opened Validation
  import opened Requests

  /** A laptop request by employee ATS0123 for the given day. */
  function LaptopRequest(day: int): (s: Submission) {
    Submission(Some("Jordan Lee"), Some("ATS0123"), Some("Laptop"), None,
               Some("Need for onboarding"), Some(day))
  }

  /** A request for an asset of type `Other`, submitted with a trailing space in its name. */
  function ChairRequest(day: int): (s: Submission) {
    Submission(Some("Jordan Lee"), Some("ATS0123"), Some("Other"), Some("Chair "),
               Some("Need a chair"), Some(day))
  }

  // Facts about the concrete texts below, one per lemma so that each proof stays small.

  lemma NameTrim() ensures Trim("Jordan Lee") == "Jordan Lee" { TrimOfTrimmed("Jordan Lee"); }
  lemma NameLength() ensures Utf16Length("Jordan Lee") == 10 { BmpTextLength("Jordan Lee"); }
  lemma OnboardingTrim() ensures Trim("Need for onboarding") == "Need for onboarding" { TrimOfTrimmed("Need for onboarding"); }
  lemma OnboardingLength() ensures Utf16Length("Need for onboarding") == 19 { BmpTextLength("Need for onboarding"); }
  lemma ChairReasonTrim() ensures Trim("Need a chair") == "Need a chair" { TrimOfTrimmed("Need a chair"); }
  lemma ChairReasonLength() ensures Utf16Length("Need a chair") == 12 { BmpTextLength("Need a chair"); }
  lemma IdAccepted() ensures EmployeeIdOk(Some("ATS0123")) { assert "ATS0123"[..4] == "ATS0"; }

  lemma NameAccepted() ensures NameOk(Some("Jordan Lee")) { NameTrim(); NameLength(); }
  lemma OnboardingAccepted() ensures ReasonOk(Some("Need for onboarding")) { OnboardingTrim(); OnboardingLength(); }

  lemma LaptopRequestValid(today: int, latest: int)
    requires today <= latest
    ensures Validate(LaptopRequest(today), today, latest).None?
  {
    NameAccepted(); OnboardingAccepted(); IdAccepted();
    FieldsValidated(LaptopRequest(today), today, latest);
  }

  lemma ChairTrim() ensures Trim("Chair ") == "Chair" {
    TrimOfPadded([], "Chair", " ");
    assert [] + "Chair" + " " == "Chair ";
  }
  lemma ChairLength() ensures Utf16Length("Chair") == 5 { BmpTextLength("Chair"); }
  lemma ChairLetters() ensures LettersAndSpaces("Chair ") { }

  lemma ChairReasonAccepted() ensures ReasonOk(Some("Need a chair")) { ChairReasonTrim(); ChairReasonLength(); }
  lemma ChairAccepted() ensures OtherAssetNameOk(Some("Other"), Some("Chair ")) { ChairTrim(); ChairLength(); ChairLetters(); }

  lemma ChairRequestValid(today: int, latest: int)
    requires today <= latest
    ensures Validate(ChairRequest(today), today, latest).None?
  {
    NameAccepted(); ChairReasonAccepted(); IdAccepted(); ChairAccepted();
    FieldsValidated(ChairRequest(today), today, latest);
  }

  /** A request that passes validation, submitted to an empty table, becomes its only row, row 1, `Pending`. */
  lemma SubmitToEmpty(s: Submission, today: int, latest: int)
    requires Validate(s, today, latest).None?
    ensures var (t1, created) := Submit(EmptyTable, s, today, latest);
      && created.Created? && created.request.id == 1 && created.request.status == Pending
      && t1.rows == map[1 := created.request]
  {
    ValidatedFields(s, today, latest);
    assert !HasDuplicate(map[], s.employeeId.value, s.assetType.value, DuplicateProbe(s));
  }

  /** Approving the only row of a table makes it the only `Approved` row and leaves no `Pending` one. */
  lemma ApproveOnlyRow(r: AssetRequest, nextId: int)
    ensures var (t2, updated) := UpdateStatus(Table(map[1 := r], nextId), 1, Some("Approved"));
      && updated.Updated? && updated.request.status == Approved
      && 1 in Select(t2.rows, Query(Some("Approved"), None))
      && Select(t2.rows, Query(Some("Pending"), None)) == map[]
  {
    var (t2, updated) := UpdateStatus(Table(map[1 := r], nextId), 1, Some("Approved"));
    assert t2.rows == map[1 := r.(status := Approved)];
    assert RowMatches(t2.rows[1], Query(Some("Approved"), None));
  }

  /**
   Any request that passes validation, submitted to an empty table, is
   stored as row 1 with status `Pending`; approving row 1 makes it
   `Approved`, after which listing by `Approved` returns it and listing by
   `Pending` returns nothing.
   */
  lemma SubmitApproveList(s: Submission, today: int, latest: int)
    requires Validate(s, today, latest).None?
    ensures var (t1, created) := Submit(EmptyTable, s, today, latest);
      && created.Created? && created.request.id == 1 && created.request.status == Pending
      && var (t2, updated) := UpdateStatus(t1, 1, Some("Approved"));
         && updated.Updated? && updated.request.status == Approved
         && 1 in Select(t2.rows, Query(Some("Approved"), None))
         && Select(t2.rows, Query(Some("Pending"), None)) == map[]
  {
    SubmitToEmpty(s, today, latest);
    var (t1, created) := Submit(EmptyTable, s, today, latest);
    ApproveOnlyRow(created.request, t1.nextId);
    assert t1 == Table(map[1 := created.request], t1.nextId);
  }

  /** The laptop request of the walkthrough, dated today, passes validation and so goes through that scenario. */
  lemma LaptopScenario(today: int, latest: int)
    requires today <= latest
    ensures var (t1, created) := Submit(EmptyTable, LaptopRequest(today), today, latest);
      && created.Created? && created.request.status == Pending
      && 1 in Select(UpdateStatus(t1, 1, Some("Approved")).0.rows, Query(Some("Approved"), None))
  {
    LaptopRequestValid(today, latest);
    SubmitApproveList(LaptopRequest(today), today, latest);
  }

  /**
   As written, a valid `Other` request whose name has white space at an end
   is stored again each time it is submitted: the duplicate query looks for
   the name as submitted while the row holds it trimmed, so the table ends
   with two rows of the same key.
   */
  lemma AsWrittenStoresRepeatTwice(s: Submission, today: int, latest: int)
    requires Validate(s, today, latest).None?
    requires s.assetType == Some("Other") && s.otherAssetName.Some?
    requires Trim(s.otherAssetName.value) != s.otherAssetName.value
    ensures var (t1, first) := SubmitAsWritten(EmptyTable, s, today, latest);
      && first.Created?
      && var (t2, second) := SubmitAsWritten(t1, s, today, latest);
         && second.Created?
         && !NoDuplicates(t2.rows)
  {
    ValidatedFields(s, today, latest);
    var (t1, first) := SubmitAsWritten(EmptyTable, s, today, latest);
    assert t1 == Table(map[1 := first.request], 2);
    assert first.request == NewRecord(s, 1);
    if IsTrimmed(s.otherAssetName.value) {
      TrimOfTrimmed(s.otherAssetName.value);
    }
    NewRecordIsStorable(s, 1);
    SingleRowInv(first.request);
    PaddedNameNeverDuplicate(t1, s, today, latest);
    var (t2, second) := SubmitAsWritten(t1, s, today, latest);
    NewRecordKeyIgnoresId(s, 1, 2);
    TwoRowsSameKey(t2.rows, first.request, second.request);
  }

  /** The key of the row the insert writes does not depend on the id it is given. */
  lemma NewRecordKeyIgnoresId(s: Submission, i: int, j: int)
    requires Complete(s)
    ensures Key(NewRecord(s, i)) == Key(NewRecord(s, j))
  {
  }

  /** A table holding one stored row, under id 1, keeps the invariant. */
  lemma SingleRowInv(r: AssetRequest)
    requires StoredRequestOk(r) && r.id == 1
    ensures Inv(Table(map[1 := r], 2))
  {
  }

  /** Two rows of the same key under ids 1 and 2 break the no-duplicates invariant. */
  lemma TwoRowsSameKey(rows: map<int, AssetRequest>, r1: AssetRequest, r2: AssetRequest)
    requires rows == map[1 := r1, 2 := r2] && Key(r1) == Key(r2)
    ensures !NoDuplicates(rows)
  {
    assert Key(rows[1]) == Key(rows[2]);
  }

  /** The request `Chair ` is such a request: as written, submitting it twice stores it twice. */
  lemma ChairStoredTwice(today: int, latest: int)
    requires today <= latest
    ensures var (t1, _) := SubmitAsWritten(EmptyTable, ChairRequest(today), today, latest);
      !NoDuplicates(SubmitAsWritten(t1, ChairRequest(today), today, latest).0.rows)
  {
    ChairRequestValid(today, latest);
    ChairTrim();
    assert |"Chair"| != |"Chair "|;
    AsWrittenStoresRepeatTwice(ChairRequest(today), today, latest);
  }

  /** With the corrected duplicate query the repeat of `Chair ` is refused. */
  lemma ChairRefusedOnRepeat(today: int, latest: int)
    requires today <= latest
    ensures var (t1, _) := Submit(EmptyTable, ChairRequest(today), today, latest);
      Submit(t1, ChairRequest(today), today, latest).1.Duplicate?
  {
    ChairRequestValid(today, latest);
    SubmitOutcomes(EmptyTable, ChairRequest(today), today, latest);
    ResubmitIsDuplicate(EmptyTable, ChairRequest(today), today, latest);
  }
}

=== FILE: store.dfy ===
/**
 The `asset_requests` table as the handlers see it: one object whose rows
 and id sequence the handlers update in place. Each method follows its
 handler step by step and is proved to produce the table and outcome that
 the corresponding function of module Requests describes.
 */
module Store {
  import opened Options
  import opened Validation
  import Requests

  class RequestStore {
    var rows: map<int, Requests.AssetRequest>
    var nextId: int

    function State(): (t: Requests.Table)
      reads this
    {
      Requests.Table(rows, nextId)
    }

    ghost predicate Valid()
      reads this
    {
      Requests.Inv(State())
    }

    constructor ()
      ensures Valid() && State() == Requests.EmptyTable
    {
      rows := map[];
      nextId := 1;
    }

    /** `POST /api/requests`: validation chain, duplicate query, insert. */
    method Submit(s: Submission, today: int, latest: int) returns (outcome: Requests.SubmitOutcome)
      requires Valid()
      modifies this
      ensures Valid()
      ensures (State(), outcome) == Requests.Submit(old(State()), s, today, latest)
      ensures !outcome.Created? ==> rows == old(rows) && nextId == old(nextId)
      ensures outcome.Created? ==> rows == old(rows)[old(nextId) := outcome.request]
    {
      ghost var t := State();
      var failed := Validate(s, today, latest);
      if failed.Some? {
        return Requests.Invalid(failed.value);
      }
      ValidatedFields(s, today, latest);
      var probe := Requests.DuplicateProbe(s);
      if Requests.HasDuplicate(rows, s.employeeId.value, s.assetType.value, probe) {
        return Requests.Duplicate(Requests.DuplicateName(s));
      }
      var r := Requests.NewRecord(s, nextId);
      assert Requests.Submit(t, s, today, latest) == (Requests.Insert(t, r), Requests.Created(r));
      Requests.DuplicateQueryFindsKey(t, s);
      Requests.NewRecordIsStorable(s, nextId);
      Insert(r);
      outcome := Requests.Created(r);
    }

    /** The INSERT of the submit handler: the row goes under the next id of the sequence. */
    method Insert(r: Requests.AssetRequest)
      requires Valid() && Requests.StoredRequestOk(r) && r.id == nextId
      requires forall id | id in rows :: Requests.Key(rows[id]) != Requests.Key(r)
      modifies this
      ensures Valid()
      ensures State() == Requests.Insert(old(State()), r)
    {
      Requests.InsertKeepsInv(State(), r);
      rows := rows[nextId := r];
      nextId := nextId + 1;
    }

    /** `GET /api/requests`: builds the WHERE clause filter by filter, then selects. */
    method List(status: Option<string>, search: Option<string>) returns (result: map<int, Requests.AssetRequest>)
      ensures forall id :: id in result <==> id in rows && Requests.Listed(rows[id], status, search)
      ensures forall id :: id in result ==> result[id] == rows[id]
    {
      var query := Requests.Query(None, None);
      if Truthy(status) && status.value != "all" {
        query := query.(status := status);
      }
      if Truthy(search) {
        query := query.(namePattern := search);
      }
      result := Requests.Select(rows, query);
    }

    /** `PUT /api/requests/:id`: status check, then a single-row update. */
    method UpdateStatus(id: int, text: Option<string>) returns (outcome: Requests.UpdateOutcome)
      requires Valid()
      modifies this
      ensures Valid()
      ensures (State(), outcome) == Requests.UpdateStatus(old(State()), id, text)
      ensures nextId == old(nextId) && rows.Keys == old(rows).Keys
      ensures forall k :: k in rows && k != id ==> rows[k] == old(rows)[k]
    {
      Requests.UpdateStatusOutcomes(State(), id, text);
      var st := Requests.ParseNewStatus(text);
      if st.None? {
        return Requests.InvalidStatus;
      }
      if id !in rows {
        return Requests.NotFound;
      }
      var r := rows[id].(status := st.value);
      rows := rows[id := r];
      outcome := Requests.Updated(r);
    }

    /** `DELETE /api/requests`: deletes the rows whose id is listed and reports how many went. */
    method DeleteSelected(ids: Option<seq<int>>) returns (outcome: Requests.DeleteOutcome)
      requires Valid()
      modifies this
      ensures Valid()
      ensures (State(), outcome) == Requests.DeleteSelected(old(State()), ids)
      ensures outcome.Deleted? ==> outcome.count == |old(rows)| - |rows|
      ensures forall k :: k in rows ==> k in old(rows) && rows[k] == old(rows)[k]
    {
      Requests.DeleteSelectedOutcomes(State(), ids);
      if ids.None? || |ids.value| == 0 {
        return Requests.NoIds;
      }
      var matched := set id | id in rows && id in ids.value;
      rows := map id | id in rows && id !in ids.value :: rows[id];
      outcome := Requests.Deleted(|matched|);
    }

    /** `DELETE /api/requests/clear`: deletes every row. */
    method ClearAll()
      requires Valid()
      modifies this
      ensures Valid()
      ensures State() == Requests.ClearAll(old(State()))
    {
      Requests.ClearAllOutcomes(State());
      rows := map[];
    }
  }
}

=== FILE: validation.dfy ===
/**
 The field checks of the submit handler (`POST /api/requests`) and the date
 window check `validateDate`. Each check is a predicate over the submitted
 fields; `Validate` runs them in the handler's order and reports the first
 one that fails.
 */
module Validation {
  import opened Options
  import opened JsText

  /**
   The body of a submission. A field the body leaves out is `None`; the
   request date is a day number, `None` when it does not parse as a date.
   The employee ID is read from the body key `employeeID` (capital `ID`); a
   body that sends it under `employeeId` has no ID and fails the ID check.
   */
  datatype Submission = Submission(
    employeeName: Option<string>,
    employeeId: Option<string>,
    assetType: Option<string>,
    otherAssetName: Option<string>,
    reason: Option<string>,
    requestDate: Option<int>)

  /** One check of the chain, named after the field it guards. */
  datatype Check =
    | NameLength
    | EmployeeIdFormat
    | AssetTypeRequired
    | OtherAssetNameFormat
    | ReasonLength
    | RequestDateRange

  /** Position of a check in the chain. */
  function Rank(c: Check): (n: nat) {
    match c
    case NameLength => 0
    case EmployeeIdFormat => 1
    case AssetTypeRequired => 2
    case OtherAssetNameFormat => 3
    case ReasonLength => 4
    case RequestDateRange => 5
  }

  /** JavaScript truthiness of a string field: present and not empty. */
  predicate Truthy(s: Option<string>) { s.Some? && s.value != "" }

  /** The trimmed text is `lo` to `hi` UTF-16 code units long. */
  predicate TrimmedLengthIn(s: string, lo: nat, hi: nat) {
    lo <= Utf16Length(Trim(s)) <= hi
  }

  predicate NameOk(name: Option<string>) {
    Truthy(name) && TrimmedLengthIn(name.value, 5, 40)
  }

  /** `/^ATS0\d{3}$/`: the prefix `ATS0` and exactly three ASCII digits, nothing else. */
  predicate MatchesIdPattern(id: string) {
    |id| == 7 && id[..4] == "ATS0" && IsDigit(id[4]) && IsDigit(id[5]) && IsDigit(id[6])
  }

  predicate EndsWith(s: string, suffix: string) {
    |suffix| <= |s| && s[|s| - |suffix|..] == suffix
  }

  predicate EmployeeIdOk(id: Option<string>) {
    id.Some? && MatchesIdPattern(id.value) && !EndsWith(id.value, "000")
  }

  predicate AssetTypeOk(assetType: Option<string>) { Truthy(assetType) }

  /** `/^[A-Za-z\s]+$/`: not empty, and only ASCII letters and white space. */
  predicate LettersAndSpaces(s: string) {
    |s| > 0 && forall i :: 0 <= i < |s| ==> IsAsciiLetter(s[i]) || IsSpace(s[i])
  }

  /** The other-asset name is constrained only when the asset type is `Other`. */
  predicate OtherAssetNameOk(assetType: Option<string>, other: Option<string>) {
    assetType == Some("Other") ==>
      Truthy(other) && LettersAndSpaces(other.value) && TrimmedLengthIn(other.value, 3, 30)
  }

  predicate ReasonOk(reason: Option<string>) {
    Truthy(reason) && TrimmedLengthIn(reason.value, 5, 300)
  }

  /**
   `validateDate`: the date lies between today and two calendar months
   later, both bounds included. `today` and `latest` are the day numbers of
   those two bounds on the day of submission.
   */
  predicate DateOk(date: Option<int>, today: int, latest: int): (ok: bool)
    ensures ok ==> date.Some? && today <= latest
  {
    date.Some? && today <= date.value <= latest
  }

  predicate Passes(s: Submission, c: Check, today: int, latest: int) {
    match c
    case NameLength => NameOk(s.employeeName)
    case EmployeeIdFormat => EmployeeIdOk(s.employeeId)
    case AssetTypeRequired => AssetTypeOk(s.assetType)
    case OtherAssetNameFormat => OtherAssetNameOk(s.assetType, s.otherAssetName)
    case ReasonLength => ReasonOk(s.reason)
    case RequestDateRange => DateOk(s.requestDate, today, latest)
  }

  /**
   The validation chain of the submit handler: `None` when every check
   passes, otherwise the first failing check in the handler's order.
   */
  function Validate(s: Submission, today: int, latest: int): (r: Option<Check>)
    ensures r.Some? ==> !Passes(s, r.value, today, latest)
    ensures r.None? <==> forall c :: Passes(s, c, today, latest)
    ensures r.Some? ==> forall c :: Rank(c) < Rank(r.value) ==> Passes(s, c, today, latest)
  {
    if !NameOk(s.employeeName) then Some(NameLength)
    else if !EmployeeIdOk(s.employeeId) then Some(EmployeeIdFormat)
    else if !AssetTypeOk(s.assetType) then Some(AssetTypeRequired)
    else if !OtherAssetNameOk(s.assetType, s.otherAssetName) then Some(OtherAssetNameFormat)
    else if !ReasonOk(s.reason) then Some(ReasonLength)
    else if !DateOk(s.requestDate, today, latest) then Some(RequestDateRange)
    else None
  }

  /** The report of the chain is determined by which checks pass: exactly one check can be the first failure. */
  lemma FirstFailureIsUnique(s: Submission, today: int, latest: int, c: Check)
    requires !Passes(s, c, today, latest)
    requires forall d :: Rank(d) < Rank(c) ==> Passes(s, d, today, latest)
    ensures Validate(s, today, latest) == Some(c)
  {
    var r := Validate(s, today, latest);
    assert Rank(r.value) == Rank(c);
  }

  /** A submission that passes the chain passes each of its checks; the handler relies on this to read the fields. */
  lemma ValidatedFields(s: Submission, today: int, latest: int)
    requires Validate(s, today, latest).None?
    ensures NameOk(s.employeeName) && EmployeeIdOk(s.employeeId) && AssetTypeOk(s.assetType)
    ensures OtherAssetNameOk(s.assetType, s.otherAssetName) && ReasonOk(s.reason)
    ensures DateOk(s.requestDate, today, latest)
  {
    assert Passes(s, NameLength, today, latest) && Passes(s, EmployeeIdFormat, today, latest);
    assert Passes(s, AssetTypeRequired, today, latest) && Passes(s, OtherAssetNameFormat, today, latest);
    assert Passes(s, ReasonLength, today, latest) && Passes(s, RequestDateRange, today, latest);
  }

  /** Conversely, a submission whose every field passes its check passes the chain. */
  lemma FieldsValidated(s: Submission, today: int, latest: int)
    requires NameOk(s.employeeName) && EmployeeIdOk(s.employeeId) && AssetTypeOk(s.assetType)
    requires OtherAssetNameOk(s.assetType, s.otherAssetName) && ReasonOk(s.reason)
    requires DateOk(s.requestDate, today, latest)
    ensures Validate(s, today, latest).None?
  {
  }

  /** Trimming a name made of letters and white space leaves letters and white space. */
  lemma TrimmedLettersAndSpaces(s: string)
    requires LettersAndSpaces(s) && Trim(s) != []
    ensures LettersAndSpaces(Trim(s))
  {
    var t := TrimStart(s);
    var a := |s| - |t|;
    var r := Trim(s);
    assert r == TrimEnd(t) == t[..|r|];
    assert r == s[a..a + |r|] by {
      assert t == s[a..];
    }
    SliceOfLettersAndSpaces(s, a, a + |r|);
  }

  // ----- The employee-ID pattern, characterised by number -----

  function DigitChar(d: int): (c: char)
    requires 0 <= d < 10
    ensures IsDigit(c)
  {
    (('0' as int) + d) as char
  }

  function DigitValue(c: char): (d: int)
    requires IsDigit(c)
    ensures 0 <= d < 10 && DigitChar(d) == c
  {
    (c as int) - ('0' as int)
  }

  /** The three-digit decimal numeral of `n`, zero-padded. */
  function ThreeDigits(n: int): (s: string)
    requires 0 <= n < 1000
    ensures |s| == 3
  {
    [DigitChar(n / 100), DigitChar(n / 10 % 10), DigitChar(n % 10)]
  }

  /** The number written by the last three characters of an accepted employee ID. */
  function IdNumber(id: string): (n: int)
    requires MatchesIdPattern(id)
    ensures 0 <= n < 1000
  {
    100 * DigitValue(id[4]) + 10 * DigitValue(id[5]) + DigitValue(id[6])
  }

  lemma {:induction false} ThreeDigitsOfDigits(a: int, b: int, c: int)
    requires 0 <= a < 10 && 0 <= b < 10 && 0 <= c < 10
    ensures ThreeDigits(100 * a + 10 * b + c) == [DigitChar(a), DigitChar(b), DigitChar(c)]
  {
    var n := 100 * a + 10 * b + c;
    assert n / 100 == a;
    assert n / 10 == 10 * a + b;
    assert n / 10 % 10 == b;
    assert n % 10 == c;
  }

  /** An accepted employee ID is `ATS0` followed by the numeral of a number from 1 to 999. */
  lemma AcceptedIdIsNumbered(id: string)
    requires EmployeeIdOk(Some(id))
    ensures 1 <= IdNumber(id) <= 999
    ensures id == "ATS0" + ThreeDigits(IdNumber(id))
  {
    var a, b, c := DigitValue(id[4]), DigitValue(id[5]), DigitValue(id[6]);
    ThreeDigitsOfDigits(a, b, c);
    assert id == id[..4] + [id[4], id[5], id[6]];
    assert id[|id| - 3..] == [DigitChar(a), DigitChar(b), DigitChar(c)];
  }

  /** Every `ATS0001` to `ATS0999` is accepted. */
  lemma NumberedIdIsAccepted(n: int)
    requires 1 <= n <= 999
    ensures EmployeeIdOk(Some("ATS0" + ThreeDigits(n)))
  {
    var id := "ATS0" + ThreeDigits(n);
    assert id[..4] == "ATS0";
    assert ThreeDigits(n) == id[|id| - 3..];
    assert n == 100 * (n / 100) + 10 * (n / 10 % 10) + n % 10;
  }

  /** The employee-ID check accepts exactly the IDs `ATS0001` through `ATS0999`. */
  lemma EmployeeIdAcceptedIff(id: string)
    ensures EmployeeIdOk(Some(id)) <==> exists n :: 1 <= n <= 999 && id == "ATS0" + ThreeDigits(n)
  {
    if EmployeeIdOk(Some(id)) {
      AcceptedIdIsNumbered(id);
    }
    if exists n :: 1 <= n <= 999 && id == "ATS0" + ThreeDigits(n) {
      var n :| 1 <= n <= 999 && id == "ATS0" + ThreeDigits(n);
      NumberedIdIsAccepted(n);
    }
  }

  // ----- Consequences the handler's messages promise -----

  /** With the asset type `Other`, a digit anywhere in the other-asset name fails that check. */
  lemma OtherNameWithDigitRejected(s: Submission, today: int, latest: int, i: int)
    requires s.assetType == Some("Other") && s.otherAssetName.Some?
    requires 0 <= i < |s.otherAssetName.value| && IsDigit(s.otherAssetName.value[i])
    ensures Validate(s, today, latest) != None
    ensures NameOk(s.employeeName) && EmployeeIdOk(s.employeeId) ==>
              Validate(s, today, latest) == Some(OtherAssetNameFormat)
  {
    assert !IsSpace(s.otherAssetName.value[i]);
    assert !Passes(s, OtherAssetNameFormat, today, latest);
  }

  /** Both ends of the window are accepted dates: `validateDate` compares with `>=` and `<=`. */
  lemma DateBoundsInclusive(today: int, latest: int)
    requires today <= latest
    ensures DateOk(Some(today), today, latest) && DateOk(Some(latest), today, latest)
  {
  }

  /**
   Once the earlier checks pass, the chain accepts exactly the dates from
   today to the two-month bound, both included.
   */
  lemma DateAcceptedIff(s: Submission, today: int, latest: int)
    requires forall c :: Rank(c) < Rank(RequestDateRange) ==> Passes(s, c, today, latest)
    ensures Validate(s, today, latest).None? <==> s.requestDate.Some? && today <= s.requestDate.value <= latest
  {
    assert Passes(s, NameLength, today, latest) && Passes(s, EmployeeIdFormat, today, latest);
    assert Passes(s, AssetTypeRequired, today, latest) && Passes(s, OtherAssetNameFormat, today, latest);
    assert Passes(s, ReasonLength, today, latest);
  }

  /** A date before today or after the two-month bound always fails validation. */
  lemma DateOutsideWindowRejected(s: Submission, today: int, latest: int)
    requires s.requestDate.Some? && (s.requestDate.value < today || latest < s.requestDate.value)
    ensures Validate(s, today, latest) != None
  {
    assert !Passes(s, RequestDateRange, today, latest);
  }
}
